=== FILE: README.md ===
# Accounts ledger

A Dafny model of `AccountsStorage`, the accounts ledger over one YDB table
`accounts(id Text, balance Int64, PRIMARY KEY (id))`. The table is a finite map
from account id to balance, and each of the six storage operations —
`CreateAccount`, `DropAccount`, `AddMoney`, `DebitingMoney`, `TransferMoney`,
`GetMoney` — is one atomic, all-or-nothing step. A step returns either the new
table or an error, and an error writes nothing. The error kinds are:

- `NoMoney`: the `ErrNoMoney` sentinel.
- `NotFound`: a missing row.
- `Conflict`: an `INSERT` that the primary key rejects.
- `Overflow`: used only by the int64 debit and transfer that refuse to wrap.

Files and modules:

- `ledger.dfy`, module `Ledger`: the table, the error kinds and the six operations, each with a contract covering both its success and its error cases.
- `totals.dfy`, module `Totals`: the sum of all balances, and how inserting, removing or overwriting one row moves it.
- `properties.dfy`, module `Properties`: how the operations relate to each other.
  - Inverses: create/drop, credit/negated credit, transfer/transfer back.
  - Debit as a guarded credit, and transfer as a debit followed by a credit.
  - The non-negativity invariant: which operations keep it, and the inputs that break it.
  - How each operation moves the total; a transfer conserves it.
- `trace.dfy`, module `Trace`: sequences of calls issued one after another.
  - The invariant over whole runs.
  - Reads are read-only.
  - The example tests as runs, including their cleanup drops.
  - `n` repeated debits against one balance.
- `int64.dfy`, modules `Int64` and `Int64Ledger`: the debit and the transfer with Go's wrapping `int64` arithmetic, and a debit and a transfer that refuse to overflow.

The main model uses unbounded integers. Where the code falls short of the
ledger's intended behaviour (balances never negative, amounts never negative),
the model follows the code:

- `AddMoney` has no sign check and can make a balance negative, so "every balance is non-negative" is an invariant only of runs whose credits and transfers carry non-negative amounts.
- `TransferMoney` does not sign-check its amount either, so a negative amount can overdraw the receiving account.

One case is a modelling choice rather than the code: `GetMoney` on a missing
account. The code ignores whether a row was found, and the outcome depends on
the database driver; the model chooses the failing outcome, `NotFound` (see
"## Left out").

## Model

| member | source | states |
|---|---|---|
| `Ledger.CreateAccount` | examples/account.go:25-37 | Succeeds exactly when the id has no row. It adds exactly that id with balance 0 and keeps every other row. An existing id fails with `Conflict`, because the table's primary key rejects the `INSERT`. |
| `Ledger.DropAccount` | examples/account.go:39-72 | A missing id fails with `NotFound`. Otherwise exactly that key is removed, and every other account keeps its balance. |
| `Ledger.AddMoney` | examples/account.go:74-111 | A missing id fails with `NotFound`. Otherwise the balance moves by exactly `money`, of any sign, with no check on the result. No other row changes. |
| `Ledger.DebitingMoney` | examples/account.go:113-161 | A missing id gives `NotFound`, which is never `NoMoney`. `NoMoney` happens exactly when the balance is below `money`, and the debit succeeds exactly when the account exists and holds at least `money`. A success lowers only that account, by `money`, and leaves it non-negative. |
| `Ledger.TransferMoney` | examples/account.go:163-240 | Either account missing gives `NotFound`. `NoMoney` happens exactly when both exist and `from` holds less than `money`, and the transfer succeeds exactly when both exist and `from` holds at least `money`. A success moves `money` from `from` to `to` and changes no other row. |
| `Ledger.GetMoney` | examples/account.go:242-270 | Returns the balance of an existing id. It takes the table and returns only a value, so it cannot write. |
| `Properties.DropUndoesCreate` | examples/account.go:25-72 | Creating a fresh account and then dropping it gives back the original table. |
| `Properties.CreateAfterDrop` | examples/account.go:25-72 | Dropping an account and creating it again keeps all other rows and resets its balance to 0. |
| `Properties.AddMoneyInverse` | examples/account.go:84-86 | A credit of `-money` undoes a credit of `money`. |
| `Properties.AddMoneyAccumulates` | examples/account.go:84-86 | Two credits have the same effect as one credit of their sum. |
| `Properties.DebitIsGuardedCredit` | examples/account.go:140-149 | A debit succeeds exactly when the account exists and holds at least `money`. When it succeeds, it equals a credit of `-money`. |
| `Properties.TransferIsDebitThenCredit` | examples/account.go:185-230 | When `to` exists, a transfer equals a debit of `from` followed by a credit of `to`, including the failing cases. |
| `Properties.TransferBack` | examples/account.go:208-230 | After a successful transfer, transferring the same amount back restores the table, provided `to` started non-negative. |
| `Properties.GetMoneyAfterWrites` | examples/account.go:242-270 | A read after a create gives 0, and a read after a drop gives `NotFound`. A read after a credit sees the credited balance, and other accounts read as before. |
| `Properties.CreatePreservesNonNegative` | examples/account.go:30 | Creating an account keeps every balance non-negative. |
| `Properties.DropPreservesNonNegative` | examples/account.go:44-49 | Dropping an account keeps every balance non-negative. |
| `Properties.DebitPreservesNonNegative` | examples/account.go:140-149 | A successful debit keeps every balance non-negative, whatever the sign of `money`. |
| `Properties.TransferPreservesNonNegative` | examples/account.go:208-230 | A successful transfer of a non-negative amount keeps every balance non-negative. |
| `Properties.AddMoneyPreservesNonNegative` | examples/account.go:84-86 | A credit of a non-negative amount keeps every balance non-negative. |
| `Properties.AddMoneyCanOverdraw` | examples/account.go:84-86 | A credit more negative than an account's balance succeeds and leaves that balance negative. |
| `Properties.TransferNegativeCanOverdraw` | examples/account.go:208-230 | A transfer whose negative amount exceeds the receiver's balance passes the check on `from` and leaves `to` negative. |
| `Properties.TransferConservesTotal` | examples/account.go:221-230 | A successful transfer leaves the sum of all balances unchanged. |
| `Properties.CreateDropTotal` | examples/account.go:25-72 | Creating an account leaves the total unchanged. Dropping one lowers the total by that account's balance. |
| `Properties.AddDebitTotal` | examples/account.go:74-161 | A credit raises the total by `money`. A successful debit lowers it by `money`. |
| `Trace.Step` | examples/account.go:25-270 | Any failing call leaves the table as it was, and a balance read never writes. A balance is returned exactly for a read of an existing id. |
| `Trace.RunPreservesNonNegative` | examples/account.go:25-240 | A run of calls whose credits and transfers carry non-negative amounts keeps every balance non-negative. |
| `Trace.ReadsLeaveTable` | examples/account.go:242-270 | A run of reads leaves the table unchanged, and each read returns the balance stored before the run. |
| `Trace.AddMoneyScenario` | examples/account_examples_test.go:14-25 | Create, credit 100, credit 25, read: the run yields 125. Dropping the account then restores the table. |
| `Trace.DebitMoneyScenario` | examples/account_examples_test.go:27-40 | On a fresh account, a debit of 10 fails with `NoMoney`. After a credit of 100, a debit of 10 succeeds and the balance reads 90. |
| `Trace.TransferScenario` | examples/account_examples_test.go:42-65 | Alice receives 100 and sends 10 to Bob, and the balances then read 90 and 10. The cleanup drops restore the table. |
| `Trace.TransferNoMoneyScenario` | examples/account_examples_test.go:66-79 | Transferring 100 out of a fresh account fails with `NoMoney`, and both accounts keep balance 0. |
| `Trace.RepeatedDebits` | examples/account.go:113-161 | Runs `n` debits of a positive `money` one after another against one account: (1) each success removes exactly `money`; (2) the balance never goes negative; (3) every failed debit replies `NoMoney`, the only error for an existing account; (4) the successes come first: once a debit fails, every later one fails too, all fail when the balance starts below `money`, and if any fails, less than `money` remains at the end; (5) no other row changes. |
| `Int64.Wrap` | examples/account.go:140 | Maps an exact result into the int64 range. It is congruent to the input modulo 2^64 and is the identity on the range. |
| `Int64Ledger.DebitingMoney64` | examples/account.go:134-149 | The debit computed in wrapping int64. A missing id gives `NotFound`. `NoMoney` happens exactly when the wrapped difference is negative, and the debit succeeds exactly when the account exists and the wrapped difference is non-negative. A success writes exactly the wrapped difference, which is in range and non-negative. When the exact difference fits int64, it agrees with `Ledger.DebitingMoney`; when it does not, a success can raise the balance (see "## Findings"). |
| `Int64Ledger.DebitWrapsFromMinInt64` | examples/account.go:140-141 | A balance of MinInt64 is reachable by crediting MinInt64 to an empty account. A debit of 1 from it wraps to MaxInt64 and succeeds, where the exact debit is refused with `NoMoney`. |
| `Int64Ledger.DebitingMoneyChecked` | examples/account.go:140-149 | Whenever it succeeds, it equals the exact `Ledger.DebitingMoney` and keeps every balance in the int64 range. It fails with `Overflow` exactly when the exact debit would succeed with a balance above MaxInt64. Its other failures equal `Ledger.DebitingMoney`'s. |
| `Int64Ledger.DebitCheckedNeverRaises` | examples/account.go:140-149 | For any in-range table, including negative balances, a successful checked debit of a non-negative amount lowers exactly that account by exactly `money`, keeps it in range, and lowers the total by `money`. The wrapping debit breaks this at a balance of MinInt64 (`Int64Ledger.DebitWrapsFromMinInt64`). |
| `Int64Ledger.DebitCheckedPreservesInvariants` | examples/account.go:140-149 | A checked debit of a non-negative amount keeps the table in range and non-negative, and lowers the total by exactly `money`. |
| `Int64Ledger.DebitMinInt64Refused` | examples/account.go:140-143 | A debit of MinInt64 from an empty account is refused with `NoMoney`. This is where wrapping and exact arithmetic part. |
| `Int64Ledger.TransferMoney64` | examples/account.go:185-230 | A transfer computed in wrapping int64 fails exactly when `Ledger.TransferMoney` fails, and with the same error. A success writes the two wrapped balances. When both new balances fit int64, it agrees with `Ledger.TransferMoney`. |
| `Int64Ledger.TransferCreditWraps` | examples/account.go:221-230 | With Alice at MaxInt64 and Bob at 1, a transfer of MaxInt64 writes MinInt64 to Bob. The table stops being non-negative, and its total drops by 2^64. |
| `Int64Ledger.TransferMoneyChecked` | examples/account.go:208-230 | Whenever it succeeds, it equals the exact `Ledger.TransferMoney` and keeps every balance in the int64 range. It fails with `Overflow` exactly on the inputs where wrapped and exact results differ. |
| `Int64Ledger.TransferCheckedPreservesInvariants` | examples/account.go:208-230 | A checked transfer of a non-negative amount keeps the table in range and non-negative, and conserves its total. |

## Findings

| source | as written | input that shows it | evidently intended | confidence | as-written member | corrected member |
|---|---|---|---|---|---|---|
| examples/account.go:228 | The credited balance `toBalance+money` is computed in Go `int64` and wraps on overflow. The only check is `fromBalance < money`, at line 208. | Alice at MaxInt64, Bob at 1, transfer of MaxInt64 from Alice to Bob: Bob's balance becomes MinInt64. | A transfer of a non-negative amount never writes a negative balance and conserves the total. A credit that does not fit the column is refused. | medium, not executed | `Int64Ledger.TransferCreditWraps` | `Int64Ledger.TransferMoneyChecked` |
| examples/account.go:140-141 | `balance -= money` is computed in Go `int64` and wraps before the sign test `balance < 0`. | A balance of MinInt64, reached by crediting MinInt64 to an empty account, then a debit of 1: the wrapped difference is MaxInt64, the test passes, and MaxInt64 is written. | A debit of a non-negative amount never raises a balance. A debit from a balance below `money` is refused with `NoMoney`. | medium, not executed | `Int64Ledger.DebitWrapsFromMinInt64` | `Int64Ledger.DebitingMoneyChecked` |

The corrected debit and transfer refuse a result that does not fit the column.
Whenever they succeed, they are exactly `Ledger.DebitingMoney` and
`Ledger.TransferMoney`, the exact-arithmetic operations the rest of the model uses.

## Left out

- The YDB driver and session plumbing is replaced by the map abstraction. That covers `Table().Do` and `DoTx`, their retries, `Execute`, `TxControl` and result-set scanning.
- Store-side failures other than the primary-key rejection of `CreateAccount` (modelled as `Conflict`) are not modelled. These are a failed statement, a missing result set and a failed scan. In the model, a `SELECT` always produces its result set.
- Concurrency and isolation are not modelled. Each call is one atomic step. `Trace.RepeatedDebits` covers repeated debits only in some serial order, which is the outcome a serialisable store guarantees.
- Context cancellation and timeouts, the log line at examples/account.go:206, and the text of error messages carry no ledger logic.
- `Ledger.GetMoney`: a missing id is modelled as `NotFound`. The source ignores the result of `NextRow()` at examples/account.go:260, so the real outcome there depends on the SDK's `ScanWithDefaults`.
- `Ledger.TransferMoney`: requires `from != to`. With the same id twice, the batched `UPSERT` (examples/account.go:221-230) writes one key twice, and the store defines the outcome.
- `Ledger.AddMoney`: the addition happens in the store (`balance + $money`), so its Int64 overflow behaviour is not visible here. It is modelled as exact.
- `Ledger.DebitingMoney`: uses exact arithmetic. The Go int64 wrap is modelled separately, in `Int64Ledger.DebitingMoney64`.
- `Ledger.TransferMoney`: uses exact arithmetic for `fromBalance-money` and `toBalance+money`. The Go int64 wrap is modelled separately, in `Int64Ledger.TransferMoney64`.
- `Ledger.CreateAccount`: a duplicate id fails with `Conflict`. This relies on the store enforcing the primary key declared at examples/db_fixtures_test.go:52.
- Account ids are not checked for being non-empty, because the source does not check them.
- The test infrastructure carries no ledger logic and is left out:
  - Docker provisioning.
  - The database and table fixtures and their caching.
  - The temp-dir demos.

=== FILE: int64.dfy ===
/**
 Signed 64-bit integers as the storage code computes them: balances and
 amounts are `int64`, and subtraction and addition wrap around modulo 2^64.
 */
module Int64 {

  const MinInt64: int := -0x8000_0000_0000_0000
  const MaxInt64: int := 0x7fff_ffff_ffff_ffff
  const Modulus: int := 0x1_0000_0000_0000_0000

  predicate InRange(x: int)
  {
    MinInt64 <= x <= MaxInt64
  }

  /** Two's-complement wrap-around of an exact result into the int64 range. */
  function Wrap(x: int): (r: int)
    ensures InRange(r)
    ensures InRange(x) ==> r == x
    ensures (x - r) % Modulus == 0
  {
    var m := (x - MinInt64) % Modulus;
    assert x - (m + MinInt64) == (x - MinInt64) / Modulus * Modulus;
    m + MinInt64
  }
}

/**
 DebitingMoney and TransferMoney with the arithmetic of the storage code:
 the new balances are computed in int64 before they are written.
 */
module Int64Ledger {
  import opened Int64
  import opened Ledger
  import Properties
  import Totals

  /** Every balance fits the Int64 `balance` column. */
  predicate Valid(l: Balances)
  {
    forall k :: k in l ==> InRange(l[k])
  }

  /**
   The debit computed with int64 wrap-around: `balance -= money` wraps before
   the sign test, and the wrapped value is what gets written.
   */
  function DebitingMoney64(l: Balances, id: Id, money: int): (r: Result<Balances>)
    requires Valid(l) && InRange(money)
    ensures r == Fail(NotFound) <==> id !in l
    ensures r == Fail(NoMoney) <==> id in l && Wrap(l[id] - money) < 0
    ensures r.Ok? <==> id in l && Wrap(l[id] - money) >= 0
    ensures r.Ok? ==> id in l && r.value == l[id := Wrap(l[id] - money)]
    ensures r.Ok? ==> Valid(r.value) && r.value[id] >= 0
    ensures InRange(if id in l then l[id] - money else 0) ==> r == DebitingMoney(l, id, money)
  {
    if id !in l then Fail(NotFound)
    else
      var balance := Wrap(l[id] - money);
      if balance < 0 then Fail(NoMoney) else Ok(l[id := balance])
  }

  /**
   Where exact and wrapped arithmetic part: debiting the most negative amount
   from an empty account would credit 2^63, which the column cannot hold; the
   wrapped difference is negative, so the debit is refused.
   */
  lemma DebitMinInt64Refused(id: Id)
    ensures DebitingMoney(map[id := 0], id, MinInt64).Ok?
    ensures DebitingMoney(map[id := 0], id, MinInt64).value[id] == MaxInt64 + 1
    ensures DebitingMoney64(map[id := 0], id, MinInt64) == Fail(NoMoney)
  {
  }

  /**
   The debit side can overflow too: a balance of MinInt64, reachable with a
   credit of MinInt64 to an empty account, minus 1 wraps to MaxInt64. The
   sign test passes, so a debit of 1 succeeds and raises the balance to
   MaxInt64, where the exact debit is refused with NoMoney.
   */
  lemma DebitWrapsFromMinInt64(id: Id)
    ensures AddMoney(map[id := 0], id, MinInt64) == Ok(map[id := MinInt64])
    ensures Valid(map[id := MinInt64])
    ensures DebitingMoney64(map[id := MinInt64], id, 1) == Ok(map[id := MaxInt64])
    ensures DebitingMoney(map[id := MinInt64], id, 1) == Fail(NoMoney)
  {
    assert map[id := 0][id := 0 + MinInt64] == map[id := MinInt64];
    assert map[id := MinInt64][id := MaxInt64] == map[id := MaxInt64];
  }

  /**
   The debit that refuses a balance the Int64 column cannot hold: the sign
   test is on the exact difference, and an exact difference above MaxInt64
   (a debit of a negative amount) fails with Overflow.
   */
  function DebitingMoneyChecked(l: Balances, id: Id, money: int): (r: Result<Balances>)
    requires Valid(l) && InRange(money)
    ensures r.Ok? ==> Valid(r.value)
    ensures r.Ok? ==> r == DebitingMoney(l, id, money)
    ensures r == Fail(Overflow) <==> DebitingMoney(l, id, money).Ok? && !InRange(l[id] - money)
    ensures r.Fail? && r.error != Overflow ==> r == DebitingMoney(l, id, money)
  {
    if id !in l then Fail(NotFound)
    else if l[id] - money < 0 then Fail(NoMoney)
    else if !InRange(l[id] - money) then Fail(Overflow)
    else Ok(l[id := l[id] - money])
  }

  /** The checked debit never credits: it keeps the table valid and non-negative and never raises the total. */
  lemma DebitCheckedPreservesInvariants(l: Balances, id: Id, money: int)
    requires Valid(l) && InRange(money) && Properties.NonNegative(l) && money >= 0
    ensures var r := DebitingMoneyChecked(l, id, money);
            r.Ok? ==> Valid(r.value) && Properties.NonNegative(r.value)
    ensures var r := DebitingMoneyChecked(l, id, money);
            r.Ok? ==> Totals.Total(r.value) == Totals.Total(l) - money <= Totals.Total(l)
  {
    if DebitingMoneyChecked(l, id, money).Ok? {
      Properties.DebitPreservesNonNegative(l, id, money);
      Properties.AddDebitTotal(l, id, money);
    }
  }

  /**
   The checked debit never raises a balance, whatever the balances' signs: a
   successful debit of a non-negative amount lowers exactly `id`, by exactly
   `money`, within range, and the total with it. `DebitWrapsFromMinInt64`
   shows the wrapping debit breaking this at a balance of MinInt64.
   */
  lemma DebitCheckedNeverRaises(l: Balances, id: Id, money: int)
    requires Valid(l) && InRange(money) && money >= 0
    ensures var r := DebitingMoneyChecked(l, id, money);
            r.Ok? ==> id in l && r.value == l[id := l[id] - money] && r.value[id] <= l[id] && Valid(r.value)
    ensures var r := DebitingMoneyChecked(l, id, money);
            r.Ok? ==> Totals.Total(r.value) == Totals.Total(l) - money
  {
    if DebitingMoneyChecked(l, id, money).Ok? {
      Properties.AddDebitTotal(l, id, money);
    }
  }

  /** The transfer computed with int64 wrap-around: both new balances wrap before they are written. */
  function TransferMoney64(l: Balances, from: Id, to: Id, money: int): (r: Result<Balances>)
    requires from != to && Valid(l) && InRange(money)
    ensures r.Ok? ==> Valid(r.value)
    ensures r.Fail? ==> r == TransferMoney(l, from, to, money)
    ensures TransferMoney(l, from, to, money).Fail? ==> r == TransferMoney(l, from, to, money)
    ensures r.Ok? ==> r.value == l[from := Wrap(l[from] - money)][to := Wrap(l[to] + money)]
    ensures from in l && to in l && InRange(l[from] - money) && InRange(l[to] + money)
            ==> r == TransferMoney(l, from, to, money)
  {
    if from !in l then Fail(NotFound)
    else if to !in l then Fail(NotFound)
    else if l[from] < money then Fail(NoMoney)
    else Ok(l[from := Wrap(l[from] - money)][to := Wrap(l[to] + money)])
  }

  /**
   The credit side of a transfer can overflow: with MaxInt64 on Alice and 1 on
   Bob, a transfer of MaxInt64 passes the balance check and writes MinInt64 to
   Bob, so a transfer of a non-negative amount breaks the non-negativity of
   the table, and the total drops by 2^64.
   */
  lemma TransferCreditWraps(alice: Id, bob: Id)
    requires alice != bob
    ensures var l := map[alice := MaxInt64, bob := 1];
            && Valid(l) && Properties.NonNegative(l)
            && TransferMoney64(l, alice, bob, MaxInt64) == Ok(map[alice := 0, bob := MinInt64])
            && !Properties.NonNegative(TransferMoney64(l, alice, bob, MaxInt64).value)
            && Totals.Total(TransferMoney64(l, alice, bob, MaxInt64).value) == Totals.Total(l) - Modulus
  {
    var l := map[alice := MaxInt64, bob := 1];
    var l' := l[alice := 0][bob := MinInt64];
    assert l' == map[alice := 0, bob := MinInt64];
    assert l'[bob] < 0;
    Totals.TotalUpdate(l, alice, 0);
    Totals.TotalUpdate(l[alice := 0], bob, MinInt64);
  }

  /**
   The transfer that refuses a balance the Int64 column cannot hold: a new
   balance outside the int64 range fails with Overflow instead of wrapping.
   */
  function TransferMoneyChecked(l: Balances, from: Id, to: Id, money: int): (r: Result<Balances>)
    requires from != to && Valid(l) && InRange(money)
    ensures r.Ok? ==> Valid(r.value)
    ensures r.Ok? ==> r == TransferMoney(l, from, to, money)
    ensures r == Fail(Overflow) <==>
            TransferMoney(l, from, to, money).Ok? && TransferMoney64(l, from, to, money) != TransferMoney(l, from, to, money)
    ensures r.Fail? && r.error != Overflow ==> r == TransferMoney(l, from, to, money)
  {
    if from !in l then Fail(NotFound)
    else if to !in l then Fail(NotFound)
    else if l[from] < money then Fail(NoMoney)
    else if !InRange(l[from] - money) || !InRange(l[to] + money) then Fail(Overflow)
    else Ok(l[from := l[from] - money][to := l[to] + money])
  }

  /** The checked transfer keeps the table valid and non-negative and conserves its total. */
  lemma TransferCheckedPreservesInvariants(l: Balances, from: Id, to: Id, money: int)
    requires from != to && Valid(l) && InRange(money)
    requires Properties.NonNegative(l) && money >= 0
    ensures var r := TransferMoneyChecked(l, from, to, money);
            r.Ok? ==> Valid(r.value) && Properties.NonNegative(r.value)
    ensures var r := TransferMoneyChecked(l, from, to, money);
            r.Ok? ==> Totals.Total(r.value) == Totals.Total(l)
  {
    if TransferMoneyChecked(l, from, to, money).Ok? {
      Properties.TransferPreservesNonNegative(l, from, to, money);
      Properties.TransferConservesTotal(l, from, to, money);
    }
  }
}

=== FILE: ledger.dfy ===
/**
 The accounts ledger: one table `accounts(id, balance)` with primary key `id`,
 abstracted as a finite map from account id to balance. Every operation of the
 storage is one atomic step that either yields the new table or an error; on an
 error nothing is written.
 */
module Ledger {

  type Id = string

  /** The `accounts` table: at most one balance per id (the primary key). */
  type Balances = map<Id, int>

  datatype Error =
    | NoMoney    // the ErrNoMoney sentinel: a debit or transfer would overdraw
    | NotFound   // the referenced account has no row
    | Conflict   // INSERT of an id that already has a row
    | Overflow   // a balance that does not fit the Int64 column (see Int64Ledger)

  datatype Result<T> = Ok(value: T) | Fail(error: Error)

  /** Every account outside `ids` is still present in `after` with the same balance. */
  predicate UnchangedExcept(before: Balances, after: Balances, ids: set<Id>)
  {
    forall k :: k in before && k !in ids ==> k in after && after[k] == before[k]
  }

  /** INSERT a row with balance 0; the primary key rejects an existing id. */
  function CreateAccount(l: Balances, id: Id): (r: Result<Balances>)
    ensures r.Ok? <==> id !in l
    ensures r.Fail? ==> r.error == Conflict
    ensures r.Ok? ==> r.value.Keys == l.Keys + {id} && r.value[id] == 0
    ensures r.Ok? ==> UnchangedExcept(l, r.value, {})
  {
    if id in l then Fail(Conflict) else Ok(l[id := 0])
  }

  /** Count the rows of `id`, delete them, and report a missing account. */
  function DropAccount(l: Balances, id: Id): (r: Result<Balances>)
    ensures r.Ok? <==> id in l
    ensures r.Fail? ==> r.error == NotFound
    ensures r.Ok? ==> r.value.Keys == l.Keys - {id}
    ensures r.Ok? ==> UnchangedExcept(l, r.value, {id})
  {
    if id !in l then Fail(NotFound) else Ok(l - {id})
  }

  /** Credit `money` (of either sign) to an existing account; no sign check. */
  function AddMoney(l: Balances, id: Id, money: int): (r: Result<Balances>)
    ensures r.Ok? <==> id in l
    ensures r.Fail? ==> r.error == NotFound
    ensures r.Ok? ==> r.value.Keys == l.Keys && r.value[id] - l[id] == money
    ensures r.Ok? ==> UnchangedExcept(l, r.value, {id})
  {
    if id !in l then Fail(NotFound) else Ok(l[id := l[id] + money])
  }

  /**
   Read the balance, subtract `money`, and refuse with NoMoney when the
   result is negative; otherwise write the new balance back.
   */
  function DebitingMoney(l: Balances, id: Id, money: int): (r: Result<Balances>)
    ensures r == Fail(NotFound) <==> id !in l
    ensures r == Fail(NoMoney) <==> id in l && l[id] < money
    ensures r.Ok? <==> id in l && l[id] >= money
    ensures r.Ok? ==> r.value.Keys == l.Keys && l[id] - r.value[id] == money
    ensures r.Ok? ==> r.value[id] >= 0
    ensures r.Ok? ==> UnchangedExcept(l, r.value, {id})
  {
    if id !in l then Fail(NotFound)
    else
      var balance := l[id] - money;
      if balance < 0 then Fail(NoMoney) else Ok(l[id := balance])
  }

  /**
   Read both balances (`from` first), refuse with NoMoney when `from` holds
   less than `money`, and write both new balances in one batch.
   */
  function TransferMoney(l: Balances, from: Id, to: Id, money: int): (r: Result<Balances>)
    requires from != to
    ensures r == Fail(NotFound) <==> from !in l || to !in l
    ensures r == Fail(NoMoney) <==> from in l && to in l && l[from] < money
    ensures r.Ok? <==> from in l && to in l && l[from] >= money
    ensures r.Ok? ==> r.value.Keys == l.Keys
    ensures r.Ok? ==> l[from] - r.value[from] == money && r.value[to] - l[to] == money
    ensures r.Ok? ==> r.value[from] >= 0
    ensures r.Ok? ==> UnchangedExcept(l, r.value, {from, to})
  {
    if from !in l then Fail(NotFound)
    else if to !in l then Fail(NotFound)
    else if l[from] < money then Fail(NoMoney)
    else Ok(l[from := l[from] - money][to := l[to] + money])
  }

  /** Read the balance of `id`; the table is not written. */
  function GetMoney(l: Balances, id: Id): (r: Result<int>)
    ensures r.Ok? <==> id in l
    ensures r.Ok? ==> r.value == l[id]
    ensures r.Fail? ==> r.error == NotFound
  {
    if id in l then Ok(l[id]) else Fail(NotFound)
  }
}

=== FILE: properties.dfy ===
/**
 Properties relating the ledger operations to each other: inverses, the
 non-negativity invariant, and how each operation moves the total.
 */
module Properties {
  import opened Ledger
  import opened Totals

  /** The table invariant: no balance is negative. */
  predicate NonNegative(l: Balances)
  {
    forall k :: k in l ==> l[k] >= 0
  }

  /** Debit and transfer, composed with the credit that follows a debit. */
  function CreditAfter(r: Result<Balances>, id: Id, money: int): (after: Result<Balances>)
  {
    if r.Ok? then AddMoney(r.value, id, money) else r
  }

  // ---- inverses and reference definitions -------------------------------

  /** Creating a fresh account and dropping it again restores the table. */
  lemma DropUndoesCreate(l: Balances, id: Id)
    requires id !in l
    ensures CreateAccount(l, id).Ok?
    ensures DropAccount(CreateAccount(l, id).value, id) == Ok(l)
  {
    assert l[id := 0] - {id} == l;
  }

  /** Dropping an account and creating it again keeps every row but resets its balance. */
  lemma CreateAfterDrop(l: Balances, id: Id)
    requires id in l
    ensures DropAccount(l, id).Ok?
    ensures CreateAccount(DropAccount(l, id).value, id) == Ok(l[id := 0])
  {
    assert (l - {id})[id := 0] == l[id := 0];
  }

  /** A credit of `-money` undoes a credit of `money`. */
  lemma AddMoneyInverse(l: Balances, id: Id, money: int)
    requires id in l
    ensures AddMoney(l, id, money).Ok?
    ensures AddMoney(AddMoney(l, id, money).value, id, -money) == Ok(l)
  {
    assert l[id := l[id] + money][id := l[id]] == l;
  }

  /** Two credits accumulate into one. */
  lemma AddMoneyAccumulates(l: Balances, id: Id, a: int, b: int)
    requires id in l
    ensures AddMoney(l, id, a).Ok?
    ensures AddMoney(AddMoney(l, id, a).value, id, b) == AddMoney(l, id, a + b)
  {
    assert l[id := l[id] + a][id := l[id] + a + b] == l[id := l[id] + (a + b)];
  }

  /**
   A debit is a credit of the negated amount guarded by the balance check:
   it succeeds exactly when the account exists and holds at least `money`.
   */
  lemma DebitIsGuardedCredit(l: Balances, id: Id, money: int)
    ensures DebitingMoney(l, id, money).Ok? <==> id in l && l[id] >= money
    ensures DebitingMoney(l, id, money).Ok? ==> DebitingMoney(l, id, money) == AddMoney(l, id, -money)
  {
  }

  /**
   With both accounts present, a transfer is the debit of `from` followed by
   the credit of `to`; the failing cases agree as well.
   */
  lemma TransferIsDebitThenCredit(l: Balances, from: Id, to: Id, money: int)
    requires from != to
    requires to in l
    ensures TransferMoney(l, from, to, money) == CreditAfter(DebitingMoney(l, from, money), to, money)
  {
  }

  /** Transferring `money` back from `to` to `from` undoes a transfer, when `to` started non-negative. */
  lemma TransferBack(l: Balances, from: Id, to: Id, money: int)
    requires from != to
    requires TransferMoney(l, from, to, money).Ok?
    requires l[to] >= 0
    ensures TransferMoney(TransferMoney(l, from, to, money).value, to, from, money) == Ok(l)
  {
    var l' := TransferMoney(l, from, to, money).value;
    assert l'[to := l'[to] - money][from := l'[from] + money] == l;
  }

  /** Reading a balance after each write sees exactly what was written. */
  lemma GetMoneyAfterWrites(l: Balances, id: Id, other: Id, money: int)
    requires id != other
    ensures id !in l ==> GetMoney(CreateAccount(l, id).value, id) == Ok(0)
    ensures id in l ==> GetMoney(DropAccount(l, id).value, id) == Fail(NotFound)
    ensures id in l ==> GetMoney(AddMoney(l, id, money).value, id) == Ok(l[id] + money)
    ensures id in l && other in l ==> GetMoney(AddMoney(l, id, money).value, other) == GetMoney(l, other)
  {
  }

  // ---- the non-negativity invariant --------------------------------------

  lemma CreatePreservesNonNegative(l: Balances, id: Id)
    requires NonNegative(l)
    ensures CreateAccount(l, id).Ok? ==> NonNegative(CreateAccount(l, id).value)
  {
  }

  lemma DropPreservesNonNegative(l: Balances, id: Id)
    requires NonNegative(l)
    ensures DropAccount(l, id).Ok? ==> NonNegative(DropAccount(l, id).value)
  {
  }

  /** A debit never leaves a negative balance, whatever the sign of `money`. */
  lemma DebitPreservesNonNegative(l: Balances, id: Id, money: int)
    requires NonNegative(l)
    ensures DebitingMoney(l, id, money).Ok? ==> NonNegative(DebitingMoney(l, id, money).value)
  {
  }

  /** A transfer of a non-negative amount keeps every balance non-negative. */
  lemma TransferPreservesNonNegative(l: Balances, from: Id, to: Id, money: int)
    requires from != to
    requires NonNegative(l) && money >= 0
    ensures TransferMoney(l, from, to, money).Ok? ==> NonNegative(TransferMoney(l, from, to, money).value)
  {
  }

  /** A credit of a non-negative amount keeps every balance non-negative. */
  lemma AddMoneyPreservesNonNegative(l: Balances, id: Id, money: int)
    requires NonNegative(l) && money >= 0
    ensures AddMoney(l, id, money).Ok? ==> NonNegative(AddMoney(l, id, money).value)
  {
  }

  /** AddMoney has no sign check: a negative credit can overdraw any account holding less. */
  lemma AddMoneyCanOverdraw(l: Balances, id: Id, money: int)
    requires NonNegative(l) && id in l
    requires money < -l[id]
    ensures AddMoney(l, id, money).Ok? && !NonNegative(AddMoney(l, id, money).value)
  {
    assert AddMoney(l, id, money).value[id] < 0;
  }

  /** TransferMoney checks only `from`: a negative amount can overdraw `to`. */
  lemma TransferNegativeCanOverdraw(l: Balances, from: Id, to: Id, money: int)
    requires from != to && NonNegative(l) && from in l && to in l
    requires money < -l[to]
    ensures TransferMoney(l, from, to, money).Ok?
    ensures !NonNegative(TransferMoney(l, from, to, money).value)
  {
    assert TransferMoney(l, from, to, money).value[to] < 0;
  }

  // ---- the total of all balances -----------------------------------------

  /** A successful transfer conserves the total of all balances. */
  lemma TransferConservesTotal(l: Balances, from: Id, to: Id, money: int)
    requires from != to
    requires TransferMoney(l, from, to, money).Ok?
    ensures Total(TransferMoney(l, from, to, money).value) == Total(l)
  {
    var l1 := l[from := l[from] - money];
    TotalUpdate(l, from, l[from] - money);
    TotalUpdate(l1, to, l[to] + money);
  }

  /** Creating an account leaves the total unchanged; dropping one removes its balance. */
  lemma CreateDropTotal(l: Balances, id: Id)
    ensures CreateAccount(l, id).Ok? ==> Total(CreateAccount(l, id).value) == Total(l)
    ensures DropAccount(l, id).Ok? ==> Total(DropAccount(l, id).value) == Total(l) - l[id]
  {
    if id !in l {
      TotalInsert(l, id, 0);
    } else {
      TotalRemove(l, id);
    }
  }

  /** A credit raises the total by `money`; a debit lowers it by `money`. */
  lemma AddDebitTotal(l: Balances, id: Id, money: int)
    ensures AddMoney(l, id, money).Ok? ==> Total(AddMoney(l, id, money).value) == Total(l) + money
    ensures DebitingMoney(l, id, money).Ok? ==> Total(DebitingMoney(l, id, money).value) == Total(l) - money
  {
    if id in l {
      TotalUpdate(l, id, l[id] + money);
      TotalUpdate(l, id, l[id] - money);
    }
  }
}

=== FILE: totals.dfy ===
/**
 The total amount of money held by the table, and how each single-row change
 moves it.
 */
module Totals {
  import opened Ledger

  /** Sum of all balances. */
  ghost function Total(l: Balances): (t: int)
    decreases |l|
  {
    if l == map[] then 0
    else
      var k :| k in l;
      assert |l - {k}| < |l| by { assert (l - {k}).Keys == l.Keys - {k}; }
      l[k] + Total(l - {k})
  }

  /** Any row may be split off the sum, not only the one `Total` picks. */
  lemma {:induction false} TotalRemove(l: Balances, id: Id)
    requires id in l
    ensures Total(l) == l[id] + Total(l - {id})
    decreases |l|
  {
    var k :| k in l && Total(l) == l[k] + Total(l - {k});
    if k != id {
      var rest := l - {k};
      assert (rest - {id}).Keys == rest.Keys - {id};
      assert |rest| < |l| by { assert rest.Keys == l.Keys - {k}; }
      TotalRemove(rest, id);
      var without := l - {id};
      assert |without| < |l| by { assert without.Keys == l.Keys - {id}; }
      TotalRemove(without, k);
      assert rest - {id} == without - {k};
    }
  }

  /** Inserting a fresh row adds its balance to the sum. */
  lemma TotalInsert(l: Balances, id: Id, v: int)
    requires id !in l
    ensures Total(l[id := v]) == Total(l) + v
  {
    TotalRemove(l[id := v], id);
    assert l[id := v] - {id} == l;
  }

  /** Overwriting one row moves the sum by the difference. */
  lemma TotalUpdate(l: Balances, id: Id, v: int)
    requires id in l
    ensures Total(l[id := v]) == Total(l) - l[id] + v
  {
    TotalRemove(l, id);
    TotalRemove(l[id := v], id);
    assert l[id := v] - {id} == l - {id};
  }
}

=== FILE: trace.dfy ===
/**
 Sequences of ledger calls as a caller issues them, one after another, each
 an atomic step; the example tests are runs of this kind.
 */
module Trace {
  import opened Ledger
  import opened Properties

  datatype Op =
    | Create(id: Id)
    | Drop(id: Id)
    | Add(id: Id, money: int)
    | Debit(id: Id, money: int)
    | Transfer(from: Id, to: Id, money: int)
    | Get(id: Id)

  /** What the caller sees: success, a balance read, or an error. */
  datatype Reply = Done | Balance(amount: int) | Failed(error: Error)

  /** A transfer names two different accounts (the same key twice is store-defined). */
  predicate WellFormed(op: Op)
  {
    op.Transfer? ==> op.from != op.to
  }

  predicate AllWellFormed(ops: seq<Op>)
  {
    forall i :: 0 <= i < |ops| ==> WellFormed(ops[i])
  }

  /** Credits and transfers of a non-negative amount; everything else as is. */
  predicate NonNegativeAmount(op: Op)
  {
    (op.Add? || op.Transfer?) ==> op.money >= 0
  }

  /** A write either commits its new table or leaves the old one. */
  function Commit(l: Balances, r: Result<Balances>): (out: (Balances, Reply))
  {
    if r.Ok? then (r.value, Done) else (l, Failed(r.error))
  }

  function Step(l: Balances, op: Op): (out: (Balances, Reply))
    requires WellFormed(op)
    ensures op.Get? ==> out.0 == l
    ensures out.1.Failed? ==> out.0 == l
    ensures out.1.Balance? <==> op.Get? && op.id in l
    ensures out.1.Done? ==> !op.Get?
  {
    match op
    case Create(id) => Commit(l, CreateAccount(l, id))
    case Drop(id) => Commit(l, DropAccount(l, id))
    case Add(id, money) => Commit(l, AddMoney(l, id, money))
    case Debit(id, money) => Commit(l, DebitingMoney(l, id, money))
    case Transfer(from, to, money) => Commit(l, TransferMoney(l, from, to, money))
    case Get(id) =>
      var r := GetMoney(l, id);
      if r.Ok? then (l, Balance(r.value)) else (l, Failed(r.error))
  }

  /** Issue the calls in order, collecting one reply per call. */
  function Run(l: Balances, ops: seq<Op>): (out: (Balances, seq<Reply>))
    requires AllWellFormed(ops)
    ensures |out.1| == |ops|
    decreases |ops|
  {
    if |ops| == 0 then (l, [])
    else
      var first := Step(l, ops[0]);
      var rest := Run(first.0, ops[1..]);
      (rest.0, [first.1] + rest.1)
  }

  /** One step of a run: the first call's reply heads the replies of the rest. */
  lemma RunStep(l: Balances, ops: seq<Op>, l1: Balances, l2: Balances, replies: seq<Reply>)
    requires |ops| > 0 && AllWellFormed(ops) && |replies| > 0
    requires Step(l, ops[0]) == (l1, replies[0])
    requires Run(l1, ops[1..]) == (l2, replies[1..])
    ensures Run(l, ops) == (l2, replies)
  {
    assert replies == [replies[0]] + replies[1..];
  }

  /** A run made of calls with non-negative amounts keeps every balance non-negative. */
  lemma {:induction false} RunPreservesNonNegative(l: Balances, ops: seq<Op>)
    requires AllWellFormed(ops)
    requires forall i :: 0 <= i < |ops| ==> NonNegativeAmount(ops[i])
    requires NonNegative(l)
    ensures NonNegative(Run(l, ops).0)
    decreases |ops|
  {
    if |ops| > 0 {
      match ops[0] {
        case Create(id) => CreatePreservesNonNegative(l, id);
        case Drop(id) => DropPreservesNonNegative(l, id);
        case Add(id, money) => AddMoneyPreservesNonNegative(l, id, money);
        case Debit(id, money) => DebitPreservesNonNegative(l, id, money);
        case Transfer(from, to, money) => TransferPreservesNonNegative(l, from, to, money);
        case Get(id) =>
      }
      RunPreservesNonNegative(Step(l, ops[0]).0, ops[1..]);
    }
  }

  /** The reply a balance read gives on table `l`. */
  function ReadReply(l: Balances, id: Id): (reply: Reply)
  {
    if id in l then Balance(l[id]) else Failed(NotFound)
  }

  /** A run of balance reads writes nothing, and every read sees the table as it was. */
  lemma {:induction false} ReadsLeaveTable(l: Balances, ops: seq<Op>)
    requires forall i :: 0 <= i < |ops| ==> ops[i].Get?
    ensures AllWellFormed(ops)
    ensures Run(l, ops).0 == l
    ensures forall i :: 0 <= i < |ops| ==> Run(l, ops).1[i] == ReadReply(l, ops[i].id)
    decreases |ops|
  {
    if |ops| > 0 {
      ReadsLeaveTable(l, ops[1..]);
      var rest := Run(l, ops[1..]);
      assert Run(l, ops).1 == [ReadReply(l, ops[0].id)] + rest.1;
      forall i | 0 <= i < |ops|
        ensures Run(l, ops).1[i] == ReadReply(l, ops[i].id)
      {
        if i > 0 {
          assert ops[1..][i - 1] == ops[i];
        }
      }
    }
  }

  // ---- the example tests as runs -------------------------------------------

  /** Create an account, credit 100 and 25, read 125; the cleanup drop restores the table. */
  lemma AddMoneyScenario(l: Balances, id: Id)
    requires id !in l
    ensures Run(l, [Create(id), Add(id, 100), Add(id, 25), Get(id), Drop(id)])
         == (l, [Done, Done, Done, Balance(125), Done])
  {
    var l1 := l[id := 0];
    var l2 := l[id := 100];
    var l3 := l[id := 125];
    assert l3 - {id} == l;
    assert l2[id := l2[id] + 25] == l3;
    assert l1[id := l1[id] + 100] == l2;
    assert [Done][1..] == [];
    RunStep(l3, [Drop(id)], l, l, [Done]);
    RunStep(l3, [Get(id), Drop(id)], l3, l, [Balance(125), Done]);
    RunStep(l2, [Add(id, 25), Get(id), Drop(id)], l3, l, [Done, Balance(125), Done]);
    RunStep(l1, [Add(id, 100), Add(id, 25), Get(id), Drop(id)], l2, l, [Done, Done, Balance(125), Done]);
    RunStep(l, [Create(id), Add(id, 100), Add(id, 25), Get(id), Drop(id)], l1, l,
            [Done, Done, Done, Balance(125), Done]);
  }

  /**
   On a fresh account a debit of 10 fails with NoMoney; after a credit of 100 a
   debit of 10 succeeds and the balance reads 90.
   */
  lemma DebitMoneyScenario(l: Balances, id: Id)
    requires id !in l
    ensures Run(l, [Create(id), Debit(id, 10), Add(id, 100), Debit(id, 10), Get(id), Drop(id)])
         == (l, [Done, Failed(NoMoney), Done, Done, Balance(90), Done])
  {
    var l1 := l[id := 0];
    var l2 := l[id := 100];
    var l3 := l[id := 90];
    assert l3 - {id} == l;
    assert l2[id := l2[id] - 10] == l3;
    assert l1[id := l1[id] + 100] == l2;
    assert [Done][1..] == [];
    RunStep(l3, [Drop(id)], l, l, [Done]);
    RunStep(l3, [Get(id), Drop(id)], l3, l, [Balance(90), Done]);
    RunStep(l2, [Debit(id, 10), Get(id), Drop(id)], l3, l, [Done, Balance(90), Done]);
    RunStep(l1, [Add(id, 100), Debit(id, 10), Get(id), Drop(id)], l2, l, [Done, Done, Balance(90), Done]);
    RunStep(l1, [Debit(id, 10), Add(id, 100), Debit(id, 10), Get(id), Drop(id)], l1, l,
            [Failed(NoMoney), Done, Done, Balance(90), Done]);
    RunStep(l, [Create(id), Debit(id, 10), Add(id, 100), Debit(id, 10), Get(id), Drop(id)], l1, l,
            [Done, Failed(NoMoney), Done, Done, Balance(90), Done]);
  }

  /** The reads and the cleanup that end the transfer test. */
  lemma TransferScenarioTail(l: Balances, alice: Id, bob: Id)
    requires alice != bob && alice !in l && bob !in l
    ensures Run(l[alice := 90][bob := 10], [Get(alice), Get(bob), Drop(bob), Drop(alice)])
         == (l, [Balance(90), Balance(10), Done, Done])
  {
    var l4 := l[alice := 90][bob := 10];
    var l5 := l[alice := 90];
    assert l5 - {alice} == l;
    assert l4 - {bob} == l5;
    assert [Done][1..] == [];
    RunStep(l5, [Drop(alice)], l, l, [Done]);
    RunStep(l4, [Drop(bob), Drop(alice)], l5, l, [Done, Done]);
    RunStep(l4, [Get(bob), Drop(bob), Drop(alice)], l4, l, [Balance(10), Done, Done]);
    RunStep(l4, [Get(alice), Get(bob), Drop(bob), Drop(alice)], l4, l,
            [Balance(90), Balance(10), Done, Done]);
  }

  /**
   Alice receives 100 and sends 10 to Bob: the balances read 90 and 10, and
   dropping both accounts restores the table.
   */
  lemma TransferScenario(l: Balances, alice: Id, bob: Id)
    requires alice != bob && alice !in l && bob !in l
    ensures Run(l, [Create(alice), Add(alice, 100), Create(bob), Transfer(alice, bob, 10),
                    Get(alice), Get(bob), Drop(bob), Drop(alice)])
         == (l, [Done, Done, Done, Done, Balance(90), Balance(10), Done, Done])
  {
    var l1 := l[alice := 0];
    var l2 := l[alice := 100];
    var l3 := l2[bob := 0];
    var l4 := l[alice := 90][bob := 10];
    assert l3[alice := l3[alice] - 10][bob := l3[bob] + 10] == l4;
    assert l1[alice := l1[alice] + 100] == l2;
    TransferScenarioTail(l, alice, bob);
    RunStep(l3, [Transfer(alice, bob, 10), Get(alice), Get(bob), Drop(bob), Drop(alice)], l4, l,
            [Done, Balance(90), Balance(10), Done, Done]);
    RunStep(l2, [Create(bob), Transfer(alice, bob, 10), Get(alice), Get(bob), Drop(bob), Drop(alice)], l3, l,
            [Done, Done, Balance(90), Balance(10), Done, Done]);
    RunStep(l1, [Add(alice, 100), Create(bob), Transfer(alice, bob, 10), Get(alice), Get(bob), Drop(bob), Drop(alice)], l2, l,
            [Done, Done, Done, Balance(90), Balance(10), Done, Done]);
    RunStep(l, [Create(alice), Add(alice, 100), Create(bob), Transfer(alice, bob, 10), Get(alice), Get(bob), Drop(bob), Drop(alice)], l1, l,
            [Done, Done, Done, Done, Balance(90), Balance(10), Done, Done]);
  }

  /** Transferring 100 out of a fresh account fails with NoMoney and writes nothing. */
  lemma TransferNoMoneyScenario(l: Balances, alice: Id, bob: Id)
    requires alice != bob && alice !in l && bob !in l
    ensures Run(l, [Create(alice), Create(bob), Transfer(alice, bob, 100)])
         == (l[alice := 0][bob := 0], [Done, Done, Failed(NoMoney)])
  {
    var l1 := l[alice := 0];
    var l2 := l1[bob := 0];
    assert [Failed(NoMoney)][1..] == [];
    RunStep(l2, [Transfer(alice, bob, 100)], l2, l2, [Failed(NoMoney)]);
    RunStep(l1, [Create(bob), Transfer(alice, bob, 100)], l2, l2, [Done, Failed(NoMoney)]);
    RunStep(l, [Create(alice), Create(bob), Transfer(alice, bob, 100)], l1, l2, [Done, Done, Failed(NoMoney)]);
  }

  // ---- repeated debits -----------------------------------------------------

  function Repeat(op: Op, n: nat): (ops: seq<Op>)
    ensures |ops| == n
    ensures forall i :: 0 <= i < n ==> ops[i] == op
  {
    if n == 0 then [] else [op] + Repeat(op, n - 1)
  }

  /** How many calls of a run succeeded without reading a balance. */
  function CountDone(replies: seq<Reply>): (c: nat)
    ensures c <= |replies|
  {
    if |replies| == 0 then 0
    else (if replies[0].Done? then 1 else 0) + CountDone(replies[1..])
  }

  /** The outcome of `n` debits of `money` against `id`, as `RepeatedDebits` describes it. */
  predicate DebitsOutcome(l: Balances, id: Id, money: int, n: nat, out: (Balances, seq<Reply>))
    requires id in l
  {
    var s := CountDone(out.1);
    && out.0.Keys == l.Keys
    && out.0[id] == l[id] - s * money >= 0
    && (s < n ==> out.0[id] < money)
    && UnchangedExcept(l, out.0, {id})
    && DebitReplies(out.1, l[id] < money)
  }

  /**
   The replies of repeated debits: each is a success or NoMoney, the failures
   come after every success, and all fail when `allFail`.
   */
  predicate DebitReplies(replies: seq<Reply>, allFail: bool)
  {
    && (forall i :: 0 <= i < |replies| ==> replies[i] == Done || replies[i] == Failed(NoMoney))
    && (forall i, j :: 0 <= i < j < |replies| && replies[i].Failed? ==> replies[j].Failed?)
    && (allFail ==> forall i :: 0 <= i < |replies| ==> replies[i] == Failed(NoMoney))
  }

  /** A debit reply in front of the replies of the debits after it. */
  lemma DebitRepliesCons(r: Reply, rs: seq<Reply>, allFail: bool, restFail: bool)
    requires r == Done || r == Failed(NoMoney)
    requires DebitReplies(rs, restFail)
    requires r.Failed? ==> restFail
    requires allFail ==> r.Failed?
    ensures DebitReplies([r] + rs, allFail)
  {
    var out := [r] + rs;
    forall i | 0 < i < |out|
      ensures out[i] == rs[i - 1]
    {
    }
  }

  lemma CountDoneCons(r: Reply, rs: seq<Reply>)
    ensures CountDone([r] + rs) == (if r.Done? then 1 else 0) + CountDone(rs)
  {
    assert ([r] + rs)[1..] == rs;
  }

  /**
   `n` debits of `money` issued one after another against a balance `b`: each
   success takes exactly `money` and the balance never goes negative. The
   successes come first: once a debit fails with NoMoney every later one does,
   and all fail when `b` is below `money` from the start. So the number of
   successes is the smaller of `n` and b / money.
   */
  lemma {:induction false} RepeatedDebits(l: Balances, id: Id, money: int, n: nat)
    requires id in l && money > 0 && l[id] >= 0
    ensures AllWellFormed(Repeat(Debit(id, money), n))
    ensures DebitsOutcome(l, id, money, n, Run(l, Repeat(Debit(id, money), n)))
    decreases n
  {
    var op := Debit(id, money);
    var ops := Repeat(op, n);
    if n > 0 {
      assert ops[1..] == Repeat(op, n - 1);
      var first := Step(l, op);
      var rest := Run(first.0, ops[1..]);
      var out := Run(l, ops);
      assert out.0 == rest.0 && out.1 == [first.1] + rest.1;
      CountDoneCons(first.1, rest.1);
      RepeatedDebits(first.0, id, money, n - 1);
      var s := CountDone(rest.1);
      if l[id] >= money {
        assert first == (l[id := l[id] - money], Done);
        assert (s + 1) * money == s * money + money;
      } else {
        assert first == (l, Failed(NoMoney));
      }
      DebitRepliesCons(first.1, rest.1, l[id] < money, first.0[id] < money);
    }
  }
}
